=== FILE: README.md ===
# safewrite — a Dafny model of the race-free file update

safewrite replaces a file atomically. `safe_open` resolves the caller's
path with realpath(3) and stores the result in the caller's `PATH_MAX`
buffer. It checks that the caller may open the existing target with the
requested flags, removes any stale `<target>.tmp`, and creates a fresh
`<target>.tmp` that carries the target's owner, group and permission bits.
The caller writes the new contents to the returned descriptor. `safe_close`
flushes and closes the descriptor, then renames `<target>.tmp` over the
target. A reader of the target therefore sees either the whole old file or
the whole new one.

The model has three modules:

- `Posix` (posix.dfy) is an abstract filesystem: a map from paths to file
  records (content, `st_mode`, uid, gid) and a descriptor table. It
  defines the system calls safewrite makes: open, unlink, rename, close,
  fsync, fstat, fchown and fchmod. It also defines write, which the caller
  uses between safe_open and safe_close.
  - Flags and modes are 32-bit vectors with the Linux values of `O_CREAT`,
    `O_EXCL`, `O_TRUNC`, `S_IFMT` and `S_IFREG`.
  - open returns the lowest free descriptor, as POSIX requires.
  - Failures the filesystem cannot decide on its own (permissions, I/O,
    quotas) are an injected `Option<Fault>`. A `Fault` is any errno except
    `ENOENT`; whether a path exists decides `ENOENT`.
- `SafeWrite` (safewrite.dfy) models `safe_open` and `safe_close` of
  safewrite.c.
  - The result is either `Ok(fd)` or `Err(errno)`, which stands for the C
    return value -1 together with errno.
  - It also returns the buffer contents and the filesystem left behind.
  - Paths are byte strings with no NUL byte, stored without the terminating NUL.
  - `realpath` is a parameter, so symbolic-link resolution is abstract.
  - Whether each best-effort fchown/fchmod is permitted is a flag of the
    environment.
- `Replace` (replace.dfy) composes the two calls with one write in
  between. It proves what safewrite exists for:
  - the target ends up holding exactly the new data, with the old
    metadata;
  - no temporary file is left behind;
  - nothing else changes;
  - no descriptor leaks.

What the code does, and the model with it:

- A failed realpath is fatal. There is no fallback that resolves only the
  parent directory of a file that does not exist yet. On Linux realpath
  fails for a missing file, so the fresh-create path is reachable in the
  model only because realpath is abstract.
- The resolved name is refused with `ENAMETOOLONG` when it is longer than
  `PATH_MAX - 5` bytes. Paths are byte sequences, so lengths are what
  strlen(3) counts.
- When the stale temporary file cannot be unlinked and there is no
  target, safe_open calls `close(-1)`, and the caller sees `EBADF` rather
  than the unlink's error (see Findings). When there is a target and its
  probe descriptor fails to close, the caller sees close's error instead. `SafeOpen` takes an `Abort`
  argument: `AsWritten` is the code's behaviour and `Intended` the
  corrected one. The two differ in nothing else, and the `Replace` lemmas
  hold for both.
- The temporary file is opened with the caller's flags plus
  `O_CREAT|O_TRUNC`. `O_EXCL` and `O_NOFOLLOW` are not added.
- fchmod copies `st_mode & 07777` without clearing the set-user-ID and
  set-group-ID bits.
- The results of fsync and close in `safe_close` are ignored. Only the
  rename's result is returned.
- The header declares a `void **context` API and `safe_close_sync`. The
  source file implements neither: it implements the buffer-based
  `safe_open(buffer, flags, mode)` and `safe_close(buffer, fd)`, and those
  are what is modelled.

## Model

| member | source | states |
|---|---|---|
| SafeWrite.SafeOpen | safewrite.c:38-107 | A realpath failure or an over-long name returns the error and leaves the buffer and the filesystem untouched. Success happens exactly when resolution and the probe, unlink and create all succeed, and the exact error is given for each failure. As written, a failed unlink reports `EBADF` from `close(-1)` when there is no target, close's error when the probe descriptor fails to close, and otherwise the unlink's error. The intended version always reports the unlink's error. No descriptor leaks on error. No path other than `<resolved>.tmp` changes. On success the descriptor is the lowest free one, open on `<resolved>.tmp`, which fits in `PATH_MAX` and holds the staged record. |
| SafeWrite.Resolve | safewrite.c:43-53 | Resolution succeeds exactly when realpath succeeds and the result has room for ".tmp" and the NUL. The error is realpath's or `ENAMETOOLONG`. On success the temporary name is shorter than `PATH_MAX`. |
| SafeWrite.TempName | safewrite.c:56-57 | The temporary name is the resolved name followed by exactly ".tmp". |
| SafeWrite.TempNameInjective | safewrite.c:57 | Two targets share a temporary name only if they are the same target. A target is never its own temporary file. |
| SafeWrite.ProbeFlags | safewrite.c:66 | The probe open carries neither `O_CREAT` nor `O_TRUNC`. Every other caller bit is kept. |
| SafeWrite.CreateFlags | safewrite.c:89 | The temporary file's open always has `O_CREAT` and `O_TRUNC`. Every other caller bit is kept, including `O_EXCL`. |
| SafeWrite.StageAt | safewrite.c:66-104 | The probe tolerates only `ENOENT`. A probe or unlink error leaves the filesystem exactly as before. With the abort as written, an unlink error is reported as `EBADF` when no target exists, as close's error when the probe descriptor fails to close, and otherwise as the unlink's own error. With the abort as intended it is always the unlink's own error. A create error leaves only the stale temporary file removed. Success allocates the lowest free descriptor on the temporary name, which holds the record staged from the target if there is one. |
| SafeWrite.RemoveStaleAndCreate | safewrite.c:72-104 | A stale temporary file is unlinked, tolerating only `ENOENT`. An unlink error releases the probe descriptor. As written it reports `EBADF` when there was no probe descriptor, close's error when that close fails, and otherwise the unlink's error. Otherwise the temporary file is created from the target's metadata when the probe found the target, and from the caller's mode when it did not. |
| SafeWrite.AbortAfterUnlinkAsWritten | safewrite.c:72-77 | As written, the abort closes the probe descriptor even when it is -1. The caller sees `EBADF` when no target was open, close's error when the close fails, and the unlink's error otherwise. |
| SafeWrite.AbortAfterUnlink | safewrite.c:72-77 | The corrected abort releases the probe descriptor if there is one and reports the unlink's error whatever close returns. |
| SafeWrite.AbortBy | safewrite.c:72-77 | The two aborts release the same descriptor. The intended one always reports the unlink's error. The performed one reports `EBADF` with no probe descriptor, a failing close's error with one, and otherwise the unlink's error. |
| SafeWrite.UnlinkErrnoClobbered | safewrite.c:38-107 | With no target and a failed unlink of the stale temporary file, safe_open as written returns `EBADF` while the intended version returns the unlink's error. Both leave the same buffer and filesystem. |
| SafeWrite.StageOverExisting | safewrite.c:80-100 | When the target exists, the probe is released, whatever its close returns, and the temporary file is created. Creation fails only with the injected create error, and then nothing but the probe is released. On success the file is created owner-only and then takes the target's uid, gid and permission bits, each where permitted. |
| SafeWrite.StageFresh | safewrite.c:101-104 | With no target, the temporary file is created with the caller's mode (less the umask), owned by the caller. Failure leaves the filesystem unchanged. |
| SafeWrite.BestEffort | safewrite.c:92-99 | The fchown of the uid, the fchown of the gid and the fchmod to `st_mode & 07777` never produce an error. Each changes only its own field of the temporary file, and only when permitted. The descriptor table is unchanged. |
| SafeWrite.Adopt | safewrite.c:97-99 | The adopted record keeps its content and file type. It takes the target's uid, gid and permission bits, each exactly when that call is permitted. |
| SafeWrite.Staged | safewrite.c:80-104 | The staged file is always empty and regular. With no target it is the caller's fresh file. With a target it has the target's owner, group and permissions where the process may set them, and otherwise the caller's identity and owner-only 0600 less the umask. |
| SafeWrite.SafeClose | safewrite.c:109-123 | Success happens exactly when the rename is not failed and `<buffer>.tmp` exists. The errno is the rename's. The descriptor is released whatever fsync and close return. On success the temporary file's record is moved onto the target and nothing else changes. On error no file changes. |
| Replace.CommitMovesStagedRecord | safewrite.c:119-122 | A successful safe_close leaves the staged record at the target and no temporary file. Paths that matched the earlier state outside the temporary name still match. |
| Replace.WriteThenCommit | safewrite.c:109-123 | From a staged temporary file, one write and a successful rename put that record, holding exactly the written data, at the target. The descriptor table goes back to its state before safe_open. |
| Replace.OpenWriteClose | safewrite.c:38-123 | safe_open, one write and safe_close leave the target holding exactly the written data with the staged metadata. No temporary file is left, every other path is as it was, and the descriptor table is as it was before. This holds for safe_open both as written and as intended. |
| Replace.TargetUntouchedUntilCommit | safewrite.c:59-104 | Until safe_close renames, neither safe_open nor the caller's writes change the target. |
| Replace.ReplacePreservesMetadata | safewrite.c:84-99 | When fchown and fchmod are permitted, replacing a regular file keeps its mode, uid and gid exactly. Only its content changes. |
| Replace.ReplaceCreatesFresh | safewrite.c:101-104 | With no target, the replacement holds the data, is owned by the caller and has the caller's mode less the umask. |
| Replace.StaleTempReplaced | safewrite.c:72-89 | A leftover temporary file never blocks safe_open. It is replaced by an empty one. |
| Replace.BestEffortKeepsDescriptor | safewrite.c:91-100 | The result of safe_open does not depend on whether fchown or fchmod is permitted. |
| Replace.CloseIgnoresSyncAndClose | safewrite.c:113-122 | The result of safe_close is the rename's, whatever fsync and close return. |
| Replace.CloseRenamesTheStagedFile | safewrite.c:118-120 | The name safe_close rebuilds from the buffer is the file safe_open opened the descriptor on, and the buffer holds the resolved target. |
| Posix.LowestFree | safewrite.c:89 | The descriptor open returns is not in use, and every lower descriptor is in use. |
| Posix.Open | safewrite.c:67 | open succeeds exactly when there is no injected fault and either the path exists (without both `O_CREAT` and `O_EXCL`) or it does not and `O_CREAT` is set. Without a fault the only errors are `EEXIST` and `ENOENT`. A new file gets the mode less the umask. `O_TRUNC` empties an existing file. No other path changes. |
| Posix.Fstat | safewrite.c:84 | fstat is only taken on a descriptor that is open on an existing file, and it yields that file's record. |
| Posix.Write | testwrite.c:78 | write succeeds exactly when the descriptor is open on an existing file. It then appends all of the data to that file, returns its length, and changes nothing else. On error nothing changes. |
| Posix.Close | safewrite.c:116 | Closing a descriptor that is not open fails with `EBADF` and changes nothing. Otherwise the descriptor is released whether or not close reports an error. |
| Posix.Unlink | safewrite.c:72 | unlink succeeds exactly when there is no injected fault and the path exists. It then removes that path and nothing else. On error nothing changes, and without a fault the error is `ENOENT`. |
| Posix.Rename | safewrite.c:122 | rename succeeds exactly when there is no injected fault and the source exists. It then moves the source's record to the destination, replacing any record there, and removes the source. Every other path and the descriptor table are unchanged. On error nothing changes. |
| Posix.Fchown | safewrite.c:97-98 | fchown succeeds exactly when the descriptor is open on an existing file and the change is permitted. It then sets the given owner and/or group of that file and nothing else. On error nothing changes. |
| Posix.Fchmod | safewrite.c:99 | fchmod succeeds exactly when the descriptor is open on an existing file and the change is permitted. It then replaces that file's permission bits and keeps its file type. On error nothing changes. |
| Posix.Fsync | safewrite.c:114 | fsync fails exactly when the descriptor is not open or a fault is injected. The filesystem is unchanged either way. |

## Left out

- testwrite.c: it is written against the context API of the header, which safewrite.c does not implement.
- `safe_close_sync` and the `void **context` API: declared in safewrite.h, implemented nowhere.
- Symbolic links and path canonicalisation: realpath is an uninterpreted parameter, and paths are opaque byte strings with no directory structure.
- Inodes: a descriptor records the path it was opened on, not the file. After an unlink or rename an old descriptor refers to whatever record now has that name. The protocol never uses a descriptor across such a change to its own path, so its behaviour is unaffected.
- Races with other processes between the probe, the unlink, the create and the rename are not modelled. Each system call is atomic, and the only failures are the injected ones.
- Durability and crash behaviour: fsync changes nothing in the model.
- Privilege rules for chown and chmod: whether each call is permitted is a given flag.
- Errors from fstat: the probe descriptor is valid, so the model assumes fstat succeeds.
- The caller's writes beyond one `write` of the whole data: `Write` appends all of its data to a valid descriptor, with no short writes and no I/O errors.
- SafeClose: requires the buffer to have room for ".tmp". The C code appends the suffix to a `PATH_MAX` array without checking, which overflows for a longer buffer. The model does not describe that overflow.
- Posix.Open: the access mode (`O_WRONLY` and the like) and flags such as `O_NOFOLLOW` have no effect of their own. Failures they would cause (`EACCES`, `EISDIR`, `ELOOP`) are injected faults.

## Findings

| source | as written | input that shows it | evidently intended | confidence | as-written member | corrected member |
|---|---|---|---|---|---|---|
| safewrite.c:72-77 | when unlink of the stale temporary file fails, `close(fd)` runs even when the probe found no target and `fd` is -1; `close(-1)` sets errno to `EBADF` | target absent (probe fails with `ENOENT`), `<target>.tmp` present and its unlink fails with `EACCES`: safe_open returns -1 with errno `EBADF` | close only a real descriptor, and keep the unlink's errno across that close (save and restore errno), so the caller sees the unlink's `EACCES` | medium, not executed | SafeWrite.AbortAfterUnlinkAsWritten | SafeWrite.AbortAfterUnlink |

=== FILE: posix.dfy ===
/** An abstract POSIX filesystem and process descriptor table, just detailed
    enough to give meaning to the system calls the file-replacement protocol
    makes (open, unlink, rename, close, fsync, fstat, fchown and fchmod) and
    to the write(2) its caller makes between safe_open and safe_close.

    The filesystem is a flat map from absolute path names to file records;
    directories, links and inodes are not represented, so a descriptor
    names the path it was opened on rather than an open file. A system call that can
    fail for a reason the map does not determine (permissions, I/O errors,
    quotas) takes an optional injected `Fault`; the map alone decides ENOENT.
 */
module Posix {

  /** A path as the C code holds it: its bytes, with no NUL byte and without
      the terminating NUL, so that its length is what strlen(3) returns. */
  type Path = seq<bv8>

  /** A file descriptor as the C code sees it: -1 is the error return. */
  type Fd = int

  /** `int flags` of open(2) and `mode_t`, both 32 bits wide on Linux. */
  type Flags = bv32
  type Mode = bv32

  // Linux values of the open(2) flags the protocol touches.
  const O_CREAT: Flags := 0x40     // 0100
  const O_EXCL: Flags := 0x80      // 0200
  const O_TRUNC: Flags := 0x200    // 01000

  // st_mode layout: file type bits and the permission bits chmod can set.
  const S_IFMT: Mode := 0xF000     // 0170000
  const S_IFREG: Mode := 0x8000    // 0100000
  const PermBits: Mode := 0xFFF    // 07777

  /** The errno values the protocol distinguishes. `Other(code)` stands for
      any further errno, distinct from every named constructor; its code is a
      label, not the numeric value of a named one. */
  datatype Errno = ENOENT | EEXIST | EBADF | EPERM | EACCES | EIO | ENAMETOOLONG | Other(code: nat)

  /** An error the map cannot decide by itself: everything except ENOENT. */
  type Fault = e: Errno | e != ENOENT witness EACCES

  datatype Option<+T> = None | Some(value: T)

  /** The C convention "non-negative value, or -1 with errno set". */
  datatype SysResult<+T> = Ok(value: T) | Err(errno: Errno)

  datatype FileRec = FileRec(content: seq<bv8>, mode: Mode, uid: nat, gid: nat)

  /** Files by path, and the process's open descriptors with the path each was opened on. */
  datatype Fs = Fs(files: map<Path, FileRec>, fds: map<nat, Path>)

  /** The result of one system call and the state it leaves behind. */
  datatype Sys<+T> = Sys(ret: SysResult<T>, fs: Fs)

  /** The calling process's effective identity and file-creation mask. */
  datatype Cred = Cred(uid: nat, gid: nat, umask: Mode)

  predicate Has(flags: Flags, bit: Flags) {
    flags & bit == bit
  }

  /** `fd` is an open descriptor and a file exists at the path it names. */
  predicate IsOpen(fs: Fs, fd: Fd) {
    fd in fs.fds && fs.fds[fd] in fs.files
  }

  /** The file type bits of an st_mode. */
  function Kind(m: Mode): (k: Mode)
    ensures k & !S_IFMT == 0
  {
    m & S_IFMT
  }

  /** The permission bits of an st_mode: rwx for owner, group and other,
      setuid, setgid and sticky. */
  function Perms(m: Mode): (p: Mode)
    ensures p & !PermBits == 0
    ensures p & PermBits == p
  {
    m & PermBits
  }

  /** The record open(2) creates: empty, regular, the requested permission
      bits less the umask, owned by the caller. */
  function Created(mode: Mode, cred: Cred): (f: FileRec)
    ensures f.content == [] && f.uid == cred.uid && f.gid == cred.gid
    ensures Kind(f.mode) == S_IFREG
    ensures Perms(f.mode) == Perms(mode) & !cred.umask
  {
    FileRec([], S_IFREG | Perms(mode & !cred.umask), cred.uid, cred.gid)
  }

  /** Every natural number below `k` is in `used`, so `used` has at least `k` elements. */
  lemma {:induction false} PrefixBound(used: set<nat>, k: nat)
    requires forall j: nat :: j < k ==> j in used
    ensures k <= |used|
  {
    if k > 0 {
      var rest := used - {k - 1};
      assert forall j: nat :: j < k - 1 ==> j in rest;
      PrefixBound(rest, k - 1);
    }
  }

  /** The lowest descriptor number at or above `k` that is not in use. */
  function LowestFree(used: set<nat>, k: nat): (r: nat)
    requires forall j: nat :: j < k ==> j in used
    ensures r !in used
    ensures forall j: nat :: j < r ==> j in used
    decreases |used| - k
  {
    if k !in used then k
    else
      PrefixBound(used, k + 1);
      LowestFree(used, k + 1)
  }

  /** open(2) hands out the lowest-numbered descriptor not open in the process. */
  function Allocate(fds: map<nat, Path>): (fd: nat)
    ensures fd !in fds
    ensures forall j: nat :: j < fd ==> j in fds
  {
    LowestFree(fds.Keys, 0)
  }

  /** open(2) on path `p`: creates under O_CREAT, refuses an existing file
      under O_CREAT|O_EXCL, empties an existing file under O_TRUNC. */
  function Open(fs: Fs, p: Path, flags: Flags, mode: Mode, cred: Cred, fault: Option<Fault>): (r: Sys<Fd>)
    ensures r.ret.Ok? <==> fault.None? && (if p in fs.files then !(Has(flags, O_CREAT) && Has(flags, O_EXCL)) else Has(flags, O_CREAT))
    ensures r.ret.Err? ==> r.fs == fs
    ensures r.ret.Err? && fault.None? ==> r.ret.errno == (if p in fs.files then EEXIST else ENOENT)
    ensures r.ret.Ok? ==> r.ret.value == Allocate(fs.fds) && r.fs.fds == fs.fds[r.ret.value := p] && p in r.fs.files
    ensures r.fs.files - {p} == fs.files - {p}
    ensures flags & (O_CREAT | O_TRUNC) == 0 ==> r.fs.files == fs.files
    ensures r.ret.Ok? && p !in fs.files ==> r.fs.files[p] == Created(mode, cred)
    ensures r.ret.Ok? && p in fs.files ==>
      r.fs.files[p] == if Has(flags, O_TRUNC) then fs.files[p].(content := []) else fs.files[p]
  {
    if fault.Some? then Sys(Err(fault.value), fs)
    else if p in fs.files then
      if Has(flags, O_CREAT) && Has(flags, O_EXCL) then Sys(Err(EEXIST), fs)
      else
        var fd := Allocate(fs.fds);
        var rec := if Has(flags, O_TRUNC) then fs.files[p].(content := []) else fs.files[p];
        Sys(Ok(fd), Fs(fs.files[p := rec], fs.fds[fd := p]))
    else if Has(flags, O_CREAT) then
      var fd := Allocate(fs.fds);
      Sys(Ok(fd), Fs(fs.files[p := Created(mode, cred)], fs.fds[fd := p]))
    else Sys(Err(ENOENT), fs)
  }

  /** unlink(2): removes the name `p`, or reports ENOENT when there is none. */
  function Unlink(fs: Fs, p: Path, fault: Option<Fault>): (r: Sys<()>)
    ensures r.ret.Ok? <==> fault.None? && p in fs.files
    ensures r.ret.Err? ==> r.fs == fs && r.ret.errno == (if fault.Some? then fault.value else ENOENT)
    ensures p !in r.fs.files || r.ret.Err?
    ensures r.fs.files - {p} == fs.files - {p} && r.fs.fds == fs.fds
  {
    if fault.Some? then Sys(Err(fault.value), fs)
    else if p !in fs.files then Sys(Err(ENOENT), fs)
    else Sys(Ok(()), fs.(files := fs.files - {p}))
  }

  /** rename(2): the record at `src` becomes the record at `dst`, and `src` disappears. */
  function Rename(fs: Fs, src: Path, dst: Path, fault: Option<Fault>): (r: Sys<()>)
    requires src != dst
    ensures r.ret.Ok? <==> fault.None? && src in fs.files
    ensures r.ret.Err? ==> r.fs == fs && r.ret.errno == (if fault.Some? then fault.value else ENOENT)
    ensures r.ret.Ok? ==> src !in r.fs.files && dst in r.fs.files && r.fs.files[dst] == fs.files[src]
    ensures r.ret.Ok? ==> forall q :: q != src && q != dst ==>
      (q in r.fs.files <==> q in fs.files) && (q in fs.files ==> r.fs.files[q] == fs.files[q])
    ensures r.fs.fds == fs.fds
  {
    if fault.Some? then Sys(Err(fault.value), fs)
    else if src !in fs.files then Sys(Err(ENOENT), fs)
    else Sys(Ok(()), fs.(files := (fs.files - {src})[dst := fs.files[src]]))
  }

  /** close(2): releases an open descriptor even when it reports an error;
      a descriptor that is not open gives EBADF. */
  function Close(fs: Fs, fd: Fd, fault: Option<Fault>): (r: Sys<()>)
    ensures fd !in fs.fds ==> r == Sys(Err(EBADF), fs)
    ensures fd in fs.fds ==> r.fs == Fs(fs.files, fs.fds - {fd}) && (r.ret.Ok? <==> fault.None?)
  {
    if fd !in fs.fds then Sys(Err(EBADF), fs)
    else
      var fs' := fs.(fds := fs.fds - {fd});
      if fault.Some? then Sys(Err(fault.value), fs') else Sys(Ok(()), fs')
  }

  /** fsync(2): durability is not modelled, so only its result is. */
  function Fsync(fs: Fs, fd: Fd, fault: Option<Fault>): (r: Sys<()>)
    ensures r.fs == fs
    ensures r.ret.Ok? <==> fd in fs.fds && fault.None?
  {
    if fd !in fs.fds then Sys(Err(EBADF), fs)
    else if fault.Some? then Sys(Err(fault.value), fs)
    else Sys(Ok(()), fs)
  }

  /** fstat(2) on a descriptor that is known to be valid. */
  function Fstat(fs: Fs, fd: Fd): FileRec
    requires IsOpen(fs, fd)
  {
    fs.files[fs.fds[fd]]
  }

  /** fchown(2); `None` plays the part of the C argument -1 ("leave unchanged").
      `permitted` says whether the process may make the change. */
  function Fchown(fs: Fs, fd: Fd, uid: Option<nat>, gid: Option<nat>, permitted: bool): (r: Sys<()>)
    ensures r.fs.fds == fs.fds
    ensures r.ret.Ok? <==> IsOpen(fs, fd) && permitted
    ensures r.ret.Err? ==> r.fs == fs
    ensures r.ret.Ok? ==> var p := fs.fds[fd];
      r.fs.files == fs.files[p := fs.files[p].(uid := if uid.Some? then uid.value else fs.files[p].uid,
                                               gid := if gid.Some? then gid.value else fs.files[p].gid)]
  {
    if !IsOpen(fs, fd) then Sys(Err(EBADF), fs)
    else if !permitted then Sys(Err(EPERM), fs)
    else
      var p := fs.fds[fd];
      var f := fs.files[p];
      var f' := f.(uid := if uid.Some? then uid.value else f.uid, gid := if gid.Some? then gid.value else f.gid);
      Sys(Ok(()), fs.(files := fs.files[p := f']))
  }

  /** The st_mode chmod(2) leaves: the file type of `mode` with the
      permission bits of `perms`. */
  function Chmodded(mode: Mode, perms: Mode): (m: Mode)
    ensures Kind(m) == Kind(mode)
    ensures Perms(m) == Perms(perms)
  {
    Kind(mode) | Perms(perms)
  }

  /** fchmod(2): sets the permission bits and keeps the file type. */
  function Fchmod(fs: Fs, fd: Fd, mode: Mode, permitted: bool): (r: Sys<()>)
    ensures r.fs.fds == fs.fds
    ensures r.ret.Ok? <==> IsOpen(fs, fd) && permitted
    ensures r.ret.Err? ==> r.fs == fs
    ensures r.ret.Ok? ==> var p := fs.fds[fd];
      r.fs.files == fs.files[p := fs.files[p].(mode := Chmodded(fs.files[p].mode, mode))]
  {
    if !IsOpen(fs, fd) then Sys(Err(EBADF), fs)
    else if !permitted then Sys(Err(EPERM), fs)
    else
      var p := fs.fds[fd];
      var f := fs.files[p];
      Sys(Ok(()), fs.(files := fs.files[p := f.(mode := Chmodded(f.mode, mode))]))
  }

  /** write(2) at the end of the file, as a caller of the protocol does
      between staging and commit. */
  function Write(fs: Fs, fd: Fd, data: seq<bv8>): (r: Sys<nat>)
    ensures r.fs.fds == fs.fds
    ensures r.ret.Ok? <==> IsOpen(fs, fd)
    ensures r.ret.Err? ==> r.fs == fs
    ensures r.ret.Ok? ==> var p := fs.fds[fd];
      && r.ret.value == |data|
      && r.fs.files == fs.files[p := fs.files[p].(content := fs.files[p].content + data)]
  {
    if !IsOpen(fs, fd) then Sys(Err(EBADF), fs)
    else
      var p := fs.fds[fd];
      var f := fs.files[p];
      Sys(Ok(|data|), fs.(files := fs.files[p := f.(content := f.content + data)]))
  }
}

=== FILE: replace.dfy ===
/** Properties of the whole replacement cycle: safe_open, the caller's
    writes to the returned descriptor, and safe_close. */
module Replace {
  import opened Posix
  import opened SafeWrite

  /** A successful safe_close moves the temporary file's record onto the
      target; paths that agreed with `before` outside the temporary name
      still do. */
  lemma CommitMovesStagedRecord(before: map<Path, FileRec>, fs: Fs, target: Path, fd: Fd, cenv: CloseEnv)
    requires Fits(target) && cenv.renameFault.None? && TempName(target) in fs.files
    requires fs.files - {TempName(target)} == before - {TempName(target)}
    ensures var c := SafeClose(fs, target, fd, cenv);
      && c.ret.Ok?
      && target in c.fs.files && c.fs.files[target] == fs.files[TempName(target)]
      && TempName(target) !in c.fs.files
      && OthersUnchanged(before, c.fs.files, target, TempName(target))
      && c.fs.fds == Released(fs, fd).fds
  {
  }

  /** What a successful safe_open leaves, in terms of the state `fs` before
      it: a new descriptor open on the temporary name, which fits a PATH_MAX
      buffer and holds the empty record `rec`, and no other path changed. */
  ghost predicate StagedFrom(fs: Fs, o: Opened, rec: FileRec) {
    && o.ret.Ok? && o.ret.value >= 0 && o.ret.value !in fs.fds
    && o.fs.fds == fs.fds[o.ret.value := TempName(o.buffer)]
    && Fits(o.buffer)
    && TempName(o.buffer) in o.fs.files && o.fs.files[TempName(o.buffer)] == rec && rec.content == []
    && o.fs.files - {TempName(o.buffer)} == fs.files - {TempName(o.buffer)}
  }

  /** From a staged state, one write of `data` and a successful rename put
      `rec` with content `data` at the target and restore the descriptor table. */
  lemma WriteThenCommit(fs: Fs, o: Opened, rec: FileRec, data: seq<bv8>, cenv: CloseEnv)
    requires StagedFrom(fs, o, rec) && cenv.renameFault.None?
    ensures var w := Write(o.fs, o.ret.value, data);
            var c := SafeClose(w.fs, o.buffer, o.ret.value, cenv);
      && w.ret == Ok(|data|)
      && c.ret.Ok?
      && o.buffer in c.fs.files && c.fs.files[o.buffer] == rec.(content := data)
      && TempName(o.buffer) !in c.fs.files
      && OthersUnchanged(fs.files, c.fs.files, o.buffer, TempName(o.buffer))
      && c.fs.fds == fs.fds
  {
    var fd := o.ret.value;
    var tmp := TempName(o.buffer);
    var w := Write(o.fs, fd, data);
    assert IsOpen(o.fs, fd);
    assert rec.content + data == data;
    assert w.fs.files == o.fs.files[tmp := rec.(content := data)];
    assert w.fs.files - {tmp} == o.fs.files - {tmp};
    CommitMovesStagedRecord(fs.files, w.fs, o.buffer, fd, cenv);
    assert Released(w.fs, fd).fds == fs.fds;
  }

  /** A successful safe_open, one write of `data` and a successful rename
      leave the target holding exactly `data` with the staged metadata, no
      temporary file, every other path as it was, and the descriptor table
      as it was before safe_open. */
  lemma OpenWriteClose(fs: Fs, buffer: Path, flags: Flags, mode: Mode, realpath: Path -> SysResult<Path>,
                       env: OpenEnv, abort: Abort, data: seq<bv8>, cenv: CloseEnv)
    requires SafeOpen(fs, buffer, flags, mode, realpath, env, abort).ret.Ok?
    requires cenv.renameFault.None?
    ensures var o := SafeOpen(fs, buffer, flags, mode, realpath, env, abort);
            var w := Write(o.fs, o.ret.value, data);
            var c := SafeClose(w.fs, o.buffer, o.ret.value, cenv);
      && w.ret == Ok(|data|)
      && c.ret.Ok?
      && o.buffer in c.fs.files
      && c.fs.files[o.buffer] == Staged(Lookup(fs.files, o.buffer), mode, env).(content := data)
      && TempName(o.buffer) !in c.fs.files
      && OthersUnchanged(fs.files, c.fs.files, o.buffer, TempName(o.buffer))
      && c.fs.fds == fs.fds
  {
    var o := SafeOpen(fs, buffer, flags, mode, realpath, env, abort);
    WriteThenCommit(fs, o, Staged(Lookup(fs.files, o.buffer), mode, env), data, cenv);
  }

  /** Until the rename, the target keeps its old record: safe_open and the
      caller's writes never touch it, so a reader of the target sees either
      the old file in full or, after safe_close, the new one in full. */
  lemma TargetUntouchedUntilCommit(fs: Fs, buffer: Path, flags: Flags, mode: Mode, realpath: Path -> SysResult<Path>,
                                   env: OpenEnv, abort: Abort, data: seq<bv8>)
    requires SafeOpen(fs, buffer, flags, mode, realpath, env, abort).ret.Ok?
    ensures var o := SafeOpen(fs, buffer, flags, mode, realpath, env, abort);
            var w := Write(o.fs, o.ret.value, data);
      && Lookup(o.fs.files, o.buffer) == Lookup(fs.files, o.buffer)
      && Lookup(w.fs.files, o.buffer) == Lookup(fs.files, o.buffer)
  {
  }

  /** A target that is a regular file with no other st_mode bits. */
  predicate RegularFile(f: FileRec) {
    f.mode == S_IFREG | Perms(f.mode)
  }

  /** When the process may set owner, group and mode, replacing an existing
      regular file keeps its mode, uid and gid exactly and changes only its
      content. */
  lemma ReplacePreservesMetadata(fs: Fs, buffer: Path, flags: Flags, mode: Mode, realpath: Path -> SysResult<Path>,
                                 env: OpenEnv, abort: Abort, data: seq<bv8>, cenv: CloseEnv)
    requires SafeOpen(fs, buffer, flags, mode, realpath, env, abort).ret.Ok?
    requires cenv.renameFault.None?
    requires env.chownUid && env.chownGid && env.chmod
    requires var target := SafeOpen(fs, buffer, flags, mode, realpath, env, abort).buffer;
      target in fs.files && RegularFile(fs.files[target])
    ensures var o := SafeOpen(fs, buffer, flags, mode, realpath, env, abort);
            var c := SafeClose(Write(o.fs, o.ret.value, data).fs, o.buffer, o.ret.value, cenv);
      c.fs.files[o.buffer] == fs.files[o.buffer].(content := data)
  {
  }

  /** With no target, the replacement is a fresh file with the caller's mode
      (less the umask), owned by the caller, holding `data`. */
  lemma ReplaceCreatesFresh(fs: Fs, buffer: Path, flags: Flags, mode: Mode, realpath: Path -> SysResult<Path>,
                            env: OpenEnv, abort: Abort, data: seq<bv8>, cenv: CloseEnv)
    requires SafeOpen(fs, buffer, flags, mode, realpath, env, abort).ret.Ok?
    requires cenv.renameFault.None?
    requires SafeOpen(fs, buffer, flags, mode, realpath, env, abort).buffer !in fs.files
    ensures var o := SafeOpen(fs, buffer, flags, mode, realpath, env, abort);
            var c := SafeClose(Write(o.fs, o.ret.value, data).fs, o.buffer, o.ret.value, cenv);
      && c.fs.files[o.buffer].content == data
      && c.fs.files[o.buffer].uid == env.cred.uid && c.fs.files[o.buffer].gid == env.cred.gid
      && Kind(c.fs.files[o.buffer].mode) == S_IFREG
      && Perms(c.fs.files[o.buffer].mode) == Perms(mode) & !env.cred.umask
  {
  }

  /** A stale temporary file from an earlier run never blocks safe_open: it
      is replaced by a fresh, empty one. */
  lemma StaleTempReplaced(fs: Fs, buffer: Path, flags: Flags, mode: Mode, realpath: Path -> SysResult<Path>, env: OpenEnv, abort: Abort)
    requires Resolve(realpath, buffer).Ok? && TempName(Resolve(realpath, buffer).value) in fs.files
    requires env.probeFault.None? && env.unlinkFault.None? && env.createFault.None?
    ensures var o := SafeOpen(fs, buffer, flags, mode, realpath, env, abort);
      && o.ret.Ok?
      && o.fs.files[TempName(o.buffer)].content == []
  {
  }

  /** The descriptor safe_open returns does not depend on whether the
      best-effort fchown and fchmod calls succeed. */
  lemma BestEffortKeepsDescriptor(fs: Fs, buffer: Path, flags: Flags, mode: Mode, realpath: Path -> SysResult<Path>,
                                  env: OpenEnv, abort: Abort, uid: bool, gid: bool, chmod: bool)
    ensures SafeOpen(fs, buffer, flags, mode, realpath, env, abort).ret
         == SafeOpen(fs, buffer, flags, mode, realpath, env.(chownUid := uid, chownGid := gid, chmod := chmod), abort).ret
  {
  }

  /** safe_close reports the rename's result whatever fsync and close return. */
  lemma CloseIgnoresSyncAndClose(fs: Fs, buffer: Path, fd: Fd, env: CloseEnv, fsyncFault: Option<Fault>, closeFault: Option<Fault>)
    requires Fits(buffer)
    ensures SafeClose(fs, buffer, fd, env).ret
         == SafeClose(fs, buffer, fd, env.(fsyncFault := fsyncFault, closeFault := closeFault)).ret
  {
  }

  /** The temporary name safe_close rebuilds from the buffer is the name of
      the file safe_open opened the descriptor on. */
  lemma CloseRenamesTheStagedFile(fs: Fs, buffer: Path, flags: Flags, mode: Mode, realpath: Path -> SysResult<Path>, env: OpenEnv, abort: Abort)
    requires SafeOpen(fs, buffer, flags, mode, realpath, env, abort).ret.Ok?
    ensures var o := SafeOpen(fs, buffer, flags, mode, realpath, env, abort);
      && Fits(o.buffer)
      && o.fs.fds[o.ret.value] == TempName(o.buffer)
      && o.buffer == realpath(buffer).value
  {
  }
}

=== FILE: safewrite.dfy ===
/** The race-free file update of safewrite.c: `SafeOpen` stages a sibling
    temporary file `<resolved>.tmp` carrying the target's ownership and
    permissions, and `SafeClose` renames it over the target.

    The C functions communicate through the caller's `buffer` (which holds
    the resolved target path between the two calls), the returned descriptor
    and errno. Here each returns the C result (`Ok(fd)` or `Err(errno)` for
    -1), the buffer contents, and the filesystem left behind.
 */
module SafeWrite {
  import opened Posix

  /** PATH_MAX on Linux: a path buffer's size, terminating NUL included. */
  const PathMax: nat := 4096

  /** The bytes of ".tmp". */
  const Suffix: Path := [0x2E, 0x74, 0x6D, 0x70]

  /** Owner read and write only, for the window before the target's mode is copied. */
  const StagingMode: Mode := 0x180   // 0600

  /** The sibling temporary name of a resolved target. */
  function TempName(resolved: Path): (t: Path)
    ensures |t| == |resolved| + |Suffix|
    ensures t[..|resolved|] == resolved && t[|resolved|..] == Suffix
  {
    resolved + Suffix
  }

  /** Distinct targets never share a temporary file, and no target is its own temporary file. */
  lemma TempNameInjective(a: Path, b: Path)
    ensures TempName(a) == TempName(b) <==> a == b
    ensures TempName(a) != a
  {
  }

  /** A resolved name leaves room for the suffix and the NUL in a PATH_MAX buffer. */
  predicate Fits(resolved: Path) {
    |resolved| <= PathMax - 5
  }

  /** The flags of the probe open: the caller's, without O_CREAT and O_TRUNC. */
  function ProbeFlags(flags: Flags): (f: Flags)
    ensures f & (O_CREAT | O_TRUNC) == 0
    ensures f | O_CREAT | O_TRUNC == flags | O_CREAT | O_TRUNC
  {
    flags & !(O_CREAT | O_TRUNC)
  }

  /** The flags of the temporary file's open: O_CREAT and O_TRUNC added to
      the masked caller flags, every other caller bit kept as it was. */
  function CreateFlags(flags: Flags): (f: Flags)
    ensures Has(f, O_CREAT) && Has(f, O_TRUNC)
    ensures f & !(O_CREAT | O_TRUNC) == flags & !(O_CREAT | O_TRUNC)
    ensures Has(f, O_EXCL) == Has(flags, O_EXCL)
  {
    ProbeFlags(flags) | O_CREAT | O_TRUNC
  }

  /** Canonicalisation followed by the length guard. A failed realpath is
      fatal: there is no fallback that resolves only the parent directory. */
  function Resolve(realpath: Path -> SysResult<Path>, buffer: Path): (r: SysResult<Path>)
    ensures r.Ok? <==> realpath(buffer).Ok? && Fits(realpath(buffer).value)
    ensures r.Ok? ==> r.value == realpath(buffer).value && |TempName(r.value)| < PathMax
    ensures r.Err? ==> r.errno == if realpath(buffer).Err? then realpath(buffer).errno else ENAMETOOLONG
  {
    match realpath(buffer)
    case Err(e) => Err(e)
    case Ok(resolved) => if |resolved| > PathMax - 5 then Err(ENAMETOOLONG) else Ok(resolved)
  }

  /** What the environment decides about one safe_open call: the caller's
      identity, the failures of the probe, of the close of the probe
      descriptor, of the unlink and of the create, and whether each
      best-effort fchown/fchmod is permitted. */
  datatype OpenEnv = OpenEnv(
    cred: Cred,
    probeFault: Option<Fault>,
    probeCloseFault: Option<Fault>,
    unlinkFault: Option<Fault>,
    createFault: Option<Fault>,
    chownUid: bool,
    chownGid: bool,
    chmod: bool)

  /** What safe_open hands back: its result, the caller's buffer, the filesystem. */
  datatype Opened = Opened(ret: SysResult<Fd>, buffer: Path, fs: Fs)

  function Lookup(files: map<Path, FileRec>, p: Path): Option<FileRec> {
    if p in files then Some(files[p]) else None
  }

  /** `f` given the owner, the group and the permission bits of `st`, each
      only when the process is permitted to set it. */
  function Adopt(f: FileRec, st: FileRec, env: OpenEnv): (g: FileRec)
    ensures g.content == f.content
    ensures g.uid == (if env.chownUid then st.uid else f.uid)
    ensures g.gid == (if env.chownGid then st.gid else f.gid)
    ensures Kind(g.mode) == Kind(f.mode)
    ensures Perms(g.mode) == Perms(if env.chmod then st.mode else f.mode)
  {
    FileRec(f.content,
            if env.chmod then Chmodded(f.mode, Perms(st.mode)) else f.mode,
            if env.chownUid then st.uid else f.uid,
            if env.chownGid then st.gid else f.gid)
  }

  /** The staged temporary file a successful safe_open leaves: empty and
      regular; with no target, created with the caller's mode; with a target,
      created owner-only and then given the target's uid, gid and permission
      bits, each only when the process is permitted to set it. */
  function Staged(target: Option<FileRec>, mode: Mode, env: OpenEnv): (f: FileRec)
    ensures f.content == [] && Kind(f.mode) == S_IFREG
    ensures target.None? ==> f == Created(mode, env.cred)
    ensures target.Some? ==> f.uid == (if env.chownUid then target.value.uid else env.cred.uid)
    ensures target.Some? ==> f.gid == (if env.chownGid then target.value.gid else env.cred.gid)
    ensures target.Some? && env.chmod ==> Perms(f.mode) == Perms(target.value.mode)
    ensures target.Some? && !env.chmod ==> Perms(f.mode) == StagingMode & !env.cred.umask
  {
    match target
    case None => Created(mode, env.cred)
    case Some(st) => Adopt(Created(StagingMode, env.cred), st, env)
  }

  /** `fs` with descriptor `fd` released, if it was open. */
  function Released(fs: Fs, fd: Fd): (r: Fs)
    ensures r.files == fs.files && fd !in r.fds
    ensures forall d :: d != fd ==> (d in r.fds <==> d in fs.fds)
  {
    if fd in fs.fds then fs.(fds := fs.fds - {fd}) else fs
  }

  /** The abort after a failed unlink as written: close(fd) runs even when
      the probe found no file and fd is -1, and close(-1) overwrites errno
      with EBADF; a failing close of a real descriptor overwrites it too. */
  function AbortAfterUnlinkAsWritten(fs: Fs, probe: Fd, unlinkErr: Fault, closeFault: Option<Fault>): (r: Sys<Fd>)
    ensures r.fs == Released(fs, probe)
    ensures r.ret == Err(if probe !in fs.fds then EBADF else if closeFault.Some? then closeFault.value else unlinkErr)
  {
    var closed := Close(fs, probe, closeFault);
    Sys(Err(if closed.ret.Err? then closed.ret.errno else unlinkErr), closed.fs)
  }

  /** The abort after a failed unlink as intended: the probe descriptor, if
      there is one, is closed, and the unlink's errno is what the caller sees
      whatever the close reports. */
  function AbortAfterUnlink(fs: Fs, probe: Fd, unlinkErr: Fault, closeFault: Option<Fault>): (r: Sys<Fd>)
    requires probe >= 0 ==> probe in fs.fds
    ensures r == Sys(Err(unlinkErr), Released(fs, probe))
  {
    var fs' := if probe >= 0 then Close(fs, probe, closeFault).fs else fs;
    Sys(Err(unlinkErr), fs')
  }

  /** Which abort follows a failed unlink of the stale temporary file: the
      one safewrite.c performs, or the one it evidently intends. */
  datatype Abort = AsWritten | Intended

  /** The abort after a failed unlink, as performed or as intended. Both
      release the same descriptor; only the intended one always reports the
      unlink's error, while the performed one reports EBADF with no probe
      descriptor and a failing close's error with one. */
  function AbortBy(abort: Abort, fs: Fs, probe: Fd, unlinkErr: Fault, closeFault: Option<Fault>): (r: Sys<Fd>)
    requires probe >= 0 ==> probe in fs.fds
    ensures r.fs == Released(fs, probe)
    ensures abort.Intended? ==> r.ret == Err(unlinkErr)
    ensures abort.AsWritten? ==>
      r.ret == Err(if probe < 0 then EBADF else if closeFault.Some? then closeFault.value else unlinkErr)
  {
    match abort
    case AsWritten => AbortAfterUnlinkAsWritten(fs, probe, unlinkErr, closeFault)
    case Intended => AbortAfterUnlink(fs, probe, unlinkErr, closeFault)
  }

  /** The best-effort fchown of the uid, fchown of the gid and fchmod to
      `st_mode & 07777`, whose results are ignored: only the filesystem they
      leave behind survives, never an error. */
  function BestEffort(fs: Fs, fd: Fd, st: FileRec, env: OpenEnv): (r: Fs)
    requires IsOpen(fs, fd)
    ensures r.fds == fs.fds
    ensures r.files == fs.files[fs.fds[fd] := Adopt(fs.files[fs.fds[fd]], st, env)]
  {
    var owner := Fchown(fs, fd, Some(st.uid), None, env.chownUid);
    var group := Fchown(owner.fs, fd, None, Some(st.gid), env.chownGid);
    var p := fs.fds[fd];
    var f := fs.files[p];
    var f1 := f.(uid := if env.chownUid then st.uid else f.uid);
    assert owner.fs == fs.(files := fs.files[p := f1]);
    var f2 := f1.(gid := if env.chownGid then st.gid else f.gid);
    assert group.fs == fs.(files := fs.files[p := f2]);
    var f3 := if env.chmod then f2.(mode := Chmodded(f2.mode, Perms(st.mode))) else f2;
    assert f3 == Adopt(f, st, env);
    var perms := Fchmod(group.fs, fd, Perms(st.mode), env.chmod);
    assert perms.fs == fs.(files := fs.files[p := f3]);
    perms.fs
  }

  /** The target exists and is open on `probe`: snapshot it, close the
      probe, create the temporary file owner-only, then copy ownership and
      permission bits best-effort. */
  function StageOverExisting(fs: Fs, probe: Fd, tmp: Path, flags: Flags, env: OpenEnv): (r: Sys<Fd>)
    requires IsOpen(fs, probe) && tmp !in fs.files
    ensures r.ret.Ok? <==> env.createFault.None?
    ensures r.ret.Err? ==> r == Sys(Err(env.createFault.value), Released(fs, probe))
    ensures r.ret.Ok? ==> var fd := r.ret.value;
      && fd == Allocate(Released(fs, probe).fds)
      && r.fs.fds == Released(fs, probe).fds[fd := tmp]
      && r.fs.files == fs.files[tmp := Staged(Some(fs.files[fs.fds[probe]]), 0, env)]
  {
    var st := Fstat(fs, probe);
    var closed := Close(fs, probe, env.probeCloseFault);
    var created := Open(closed.fs, tmp, CreateFlags(flags), StagingMode, env.cred, env.createFault);
    match created.ret
    case Err(_) => created
    case Ok(fd) =>
      assert created.fs.files == fs.files[tmp := Created(StagingMode, env.cred)];
      Sys(Ok(fd), BestEffort(created.fs, fd, st, env))
  }

  /** No target: create the temporary file with the caller's mode. */
  function StageFresh(fs: Fs, tmp: Path, flags: Flags, mode: Mode, env: OpenEnv): (r: Sys<Fd>)
    requires tmp !in fs.files
    ensures r.ret.Ok? <==> env.createFault.None?
    ensures r.ret.Err? ==> r == Sys(Err(env.createFault.value), fs)
    ensures r.ret.Ok? ==> var fd := r.ret.value;
      && fd == Allocate(fs.fds) && r.fs.fds == fs.fds[fd := tmp]
      && r.fs.files == fs.files[tmp := Staged(None, mode, env)]
  {
    Open(fs, tmp, CreateFlags(flags), mode, env.cred, env.createFault)
  }

  /** Once the probe has run: remove a stale temporary file, tolerating only
      ENOENT, then create the temporary file. `probe` is the probe's
      descriptor, or -1 when it found no file; `abort` picks how a failed
      unlink is reported. */
  function RemoveStaleAndCreate(fs: Fs, probe: Fd, tmp: Path, flags: Flags, mode: Mode, env: OpenEnv, abort: Abort): (r: Sys<Fd>)
    requires probe >= 0 ==> IsOpen(fs, probe) && fs.fds[probe] != tmp
    ensures r.ret.Ok? <==> env.unlinkFault.None? && env.createFault.None?
    ensures env.unlinkFault.Some? ==> r.fs == Released(fs, probe)
    ensures env.unlinkFault.Some? && abort.Intended? ==> r.ret == Err(env.unlinkFault.value)
    ensures env.unlinkFault.Some? && abort.AsWritten? ==>
      r.ret == Err(if probe < 0 then EBADF
                   else if env.probeCloseFault.Some? then env.probeCloseFault.value
                   else env.unlinkFault.value)
    ensures env.unlinkFault.None? && env.createFault.Some? ==>
      r == Sys(Err(env.createFault.value), Released(fs, probe).(files := fs.files - {tmp}))
    ensures r.ret.Ok? ==> var fd := r.ret.value;
      && fd == Allocate(Released(fs, probe).fds)
      && r.fs.fds == Released(fs, probe).fds[fd := tmp]
      && r.fs.files == fs.files[tmp := Staged(if probe >= 0 then Some(fs.files[fs.fds[probe]]) else None, mode, env)]
  {
    var unlinked := Unlink(fs, tmp, env.unlinkFault);
    if unlinked.ret.Err? && unlinked.ret.errno != ENOENT then
      assert unlinked.fs == fs;
      AbortBy(abort, fs, probe, env.unlinkFault.value, env.probeCloseFault)
    else
      assert tmp !in unlinked.fs.files && unlinked.fs.fds == fs.fds;
      // Whatever is then stored at `tmp`, the unlink has made no other difference.
      assert unlinked.fs.files[tmp := Created(0, env.cred)] == fs.files[tmp := Created(0, env.cred)];
      if probe >= 0 then
        StageOverExisting(unlinked.fs, probe, tmp, flags, env)
      else
        StageFresh(unlinked.fs, tmp, flags, mode, env)
  }

  /** Everything safe_open does past the length guard, on the resolved
      target: probe it with O_CREAT and O_TRUNC stripped (tolerating only
      ENOENT), then remove the stale temporary file and create the new one. */
  function StageAt(fs: Fs, target: Path, flags: Flags, mode: Mode, env: OpenEnv, abort: Abort): (r: Sys<Fd>)
    ensures r.ret.Ok? <==> env.probeFault.None? && env.unlinkFault.None? && env.createFault.None?
    ensures env.probeFault.Some? ==> r == Sys(Err(env.probeFault.value), fs)
    ensures env.probeFault.None? && env.unlinkFault.Some? ==> r.fs == fs
    ensures env.probeFault.None? && env.unlinkFault.Some? && abort.Intended? ==> r.ret == Err(env.unlinkFault.value)
    ensures env.probeFault.None? && env.unlinkFault.Some? && abort.AsWritten? ==>
      r.ret == Err(if target !in fs.files then EBADF
                   else if env.probeCloseFault.Some? then env.probeCloseFault.value
                   else env.unlinkFault.value)
    ensures env.probeFault.None? && env.unlinkFault.None? && env.createFault.Some? ==>
      r == Sys(Err(env.createFault.value), fs.(files := fs.files - {TempName(target)}))
    ensures r.ret.Ok? ==> var fd := r.ret.value;
      && fd == Allocate(fs.fds)
      && r.fs.fds == fs.fds[fd := TempName(target)]
      && r.fs.files == fs.files[TempName(target) := Staged(Lookup(fs.files, target), mode, env)]
  {
    var tmp := TempName(target);
    TempNameInjective(target, target);
    var probe := Open(fs, target, ProbeFlags(flags), 0, env.cred, env.probeFault);
    if probe.ret.Err? && probe.ret.errno != ENOENT then
      Sys(Err(probe.ret.errno), fs)
    else
      var probeFd := if probe.ret.Ok? then probe.ret.value else -1;
      assert probe.fs.files == fs.files;
      assert probeFd >= 0 ==> Released(probe.fs, probeFd) == fs;
      RemoveStaleAndCreate(probe.fs, probeFd, tmp, flags, mode, env, abort)
  }

  /** safe_open: resolve the caller's path, refuse a resolved name with no
      room for the suffix, store it in the caller's buffer, and stage the
      temporary file next to it. `SafeOpen(..., AsWritten)` is what
      safewrite.c does; `SafeOpen(..., Intended)` differs from it only in
      the error reported when the stale temporary file cannot be unlinked:
      as written that error is replaced by EBADF when there is no target
      and by close's error when the probe descriptor fails to close, while
      the intended version always reports the unlink's error. */
  function SafeOpen(fs: Fs, buffer: Path, flags: Flags, mode: Mode,
                    realpath: Path -> SysResult<Path>, env: OpenEnv, abort: Abort): (r: Opened)
    // A failed realpath or an over-long resolved name: -1, nothing touched.
    ensures realpath(buffer).Err? ==> r == Opened(Err(realpath(buffer).errno), buffer, fs)
    ensures realpath(buffer).Ok? && !Fits(realpath(buffer).value) ==> r == Opened(Err(ENAMETOOLONG), buffer, fs)
    // Past the guard the buffer holds the resolved name.
    ensures realpath(buffer).Ok? && Fits(realpath(buffer).value) ==> r.buffer == realpath(buffer).value
    // Success exactly when resolution and all three fallible calls succeed.
    ensures r.ret.Ok? <==> Resolve(realpath, buffer).Ok? && env.probeFault.None? && env.unlinkFault.None? && env.createFault.None?
    // A probe error (never ENOENT) aborts before the unlink.
    ensures Resolve(realpath, buffer).Ok? && env.probeFault.Some? ==> r.ret == Err(env.probeFault.value) && r.fs == fs
    // An unlink error (never ENOENT) aborts without creating anything. As
    // intended the caller sees it; as written, the close of the probe
    // descriptor overwrites it: close(-1) with EBADF when there is no
    // target, a failing close with its own error when there is one.
    ensures Resolve(realpath, buffer).Ok? && env.probeFault.None? && env.unlinkFault.Some? ==> r.fs == fs
    ensures Resolve(realpath, buffer).Ok? && env.probeFault.None? && env.unlinkFault.Some? && abort.Intended? ==>
      r.ret == Err(env.unlinkFault.value)
    ensures Resolve(realpath, buffer).Ok? && env.probeFault.None? && env.unlinkFault.Some? && abort.AsWritten? ==>
      r.ret == Err(if r.buffer !in fs.files then EBADF
                   else if env.probeCloseFault.Some? then env.probeCloseFault.value
                   else env.unlinkFault.value)
    // A create error leaves only the stale temporary file removed.
    ensures Resolve(realpath, buffer).Ok? && env.probeFault.None? && env.unlinkFault.None? && env.createFault.Some? ==>
      r.ret == Err(env.createFault.value) && r.fs == Fs(fs.files - {TempName(r.buffer)}, fs.fds)
    // No descriptor leaks, and no path but the temporary one changes.
    ensures r.ret.Err? ==> r.fs.fds == fs.fds
    ensures r.fs.files - {TempName(r.buffer)} == fs.files - {TempName(r.buffer)}
    // On success the descriptor is the lowest one not open before the call
    // and is open on the temporary name, which fits in a PATH_MAX buffer and
    // holds the staged record.
    ensures r.ret.Ok? ==> var fd := r.ret.value;
      && fd == Allocate(fs.fds) && fd !in fs.fds
      && r.fs.fds == fs.fds[fd := TempName(r.buffer)]
      && |TempName(r.buffer)| < PathMax
      && TempName(r.buffer) in r.fs.files
      && r.fs.files[TempName(r.buffer)] == Staged(Lookup(fs.files, r.buffer), mode, env)
  {
    match Resolve(realpath, buffer)
    case Err(e) => Opened(Err(e), buffer, fs)
    case Ok(resolved) =>
      var staged := StageAt(fs, resolved, flags, mode, env, abort);
      Opened(staged.ret, resolved, staged.fs)
  }

  /** With no target, a stale temporary file whose unlink fails makes
      safe_open as written report EBADF, while the intended version reports
      the unlink's error; both leave the same buffer and filesystem. */
  lemma UnlinkErrnoClobbered(fs: Fs, buffer: Path, flags: Flags, mode: Mode,
                             realpath: Path -> SysResult<Path>, env: OpenEnv)
    requires Resolve(realpath, buffer).Ok? && Resolve(realpath, buffer).value !in fs.files
    requires env.probeFault.None? && env.unlinkFault.Some? && env.unlinkFault.value != EBADF
    ensures var w := SafeOpen(fs, buffer, flags, mode, realpath, env, AsWritten);
            var i := SafeOpen(fs, buffer, flags, mode, realpath, env, Intended);
      && w.ret == Err(EBADF) && i.ret == Err(env.unlinkFault.value)
      && w.buffer == i.buffer && w.fs == i.fs
  {
  }

  /** What the environment decides about one safe_close call. */
  datatype CloseEnv = CloseEnv(fsyncFault: Option<Fault>, closeFault: Option<Fault>, renameFault: Option<Fault>)

  /** Every path other than `target` and `tmp` is as it was. */
  ghost predicate OthersUnchanged(before: map<Path, FileRec>, after: map<Path, FileRec>, target: Path, tmp: Path) {
    forall q :: q != target && q != tmp ==>
      (q in after <==> q in before) && (q in before ==> after[q] == before[q])
  }

  /** `after` is `before` with the record at `tmp` moved to `target`. */
  ghost predicate Committed(before: map<Path, FileRec>, after: map<Path, FileRec>, target: Path, tmp: Path) {
    && tmp in before && tmp !in after
    && target in after && after[target] == before[tmp]
    && OthersUnchanged(before, after, target, tmp)
  }

  /** safe_close: flush and close `fd`, ignoring both results, then return
      the result of renaming `<buffer>.tmp` over `buffer`. The buffer must be
      what safe_open left in it; the C code copies it into a PATH_MAX array
      and appends the suffix without checking its length. */
  function SafeClose(fs: Fs, buffer: Path, fd: Fd, env: CloseEnv): (r: Sys<()>)
    requires Fits(buffer)
    ensures r.ret.Ok? <==> env.renameFault.None? && TempName(buffer) in fs.files
    ensures r.ret.Err? ==> r.ret.errno == (if env.renameFault.Some? then env.renameFault.value else ENOENT)
    ensures r.fs.fds == Released(fs, fd).fds
    ensures r.ret.Err? ==> r.fs.files == fs.files
    ensures r.ret.Ok? ==> Committed(fs.files, r.fs.files, buffer, TempName(buffer))
  {
    var synced := Fsync(fs, fd, env.fsyncFault);
    var closed := Close(synced.fs, fd, env.closeFault);
    var tmp := TempName(buffer);
    TempNameInjective(buffer, buffer);
    Rename(closed.fs, tmp, buffer, env.renameFault)
  }
}
